=== FILE: README.md ===
# before-the-pod admission webhook — Dafny model

A model of the validating admission webhook in `server/app.py`. The handler
receives a Kubernetes admission review and reads `request.uid` and the pod
template's container list. It runs `python3 -c "import mlflow"` in a
throw-away container of each container's image, in list order. It allows the
workload at the first image where the import succeeds. When none succeeds it
denies with status 403 and the message "Image does not include mlflow module".

Running the container is not modelled. Every function that would run one
takes an oracle `docker: string -> Exit`, which says how `docker run` would
end for that image reference: its return code, and whether its captured
stderr is empty, valid UTF-8 or not UTF-8. The probe decodes that stderr for
its log line when the import fails. The model records the images it would
have run, in order (`probed`), so that the short-circuit can be stated.

Python's failure paths are modelled, not excluded. Each of these raises an
exception:
- a missing key;
- a subscript of a non-dict;
- a container list that cannot be iterated;
- a container that is not a dict;
- an image that is not a string, or that holds a NUL character;
- a failed import whose stderr is not UTF-8.

The model reports that exception as `Raised(...)` and builds no reply. Some
of these failures happen while the loop runs. In that case the model keeps
the images probed before the failure, and later containers are never run.

Modules:
- `Wrappers` (wrappers.dfy): `Option` and `Result`.
- `PyJson` (pyjson.dfy): the decoded JSON value as Python sees it, with the
  semantics of `d[k]`, `d.get(k, default)` and `for x in v`.
- `Probe` (probe.dfy): `image_contains_mlflow`.
- `Admission` (admission.dfy): the two reply literals and their JSON form.
- `Webhook` (webhook.dfy): `validate`, split into request parsing
  (`ParseRequest`) and what follows it (`Respond`: the container loop and
  the reply).
- `Properties` (properties.dfy): all-inputs lemmas about `validate`.

Three facts about the handler that the model keeps:
- The only evidence about an image is the direct import probe. The handler
  does not inspect entrypoints, read source files or list directories.
- An empty image string is probed like any other image. A missing `image`
  key is probed as `""`.
- A missing uid or container path raises `KeyError`, which the handler does
  not catch. It builds no reply, and no placeholder uid stands in.

## Model

| member | source | states |
|---|---|---|
| PyJson.Lookup | server/app.py:33-34 | a dict lookup finds a value exactly when some entry has the key, and that value belongs to the first such entry |
| PyJson.Subscript | server/app.py:33-34 | `v[key]` succeeds exactly on a dict holding the key. Otherwise it raises KeyError on a dict and TypeError on anything else |
| PyJson.Get | server/app.py:37 | `v.get(key, default)` succeeds exactly on a dict and yields the default when the key is absent. A non-dict raises AttributeError |
| PyJson.Iterate | server/app.py:36 | `for` visits a list's items, a dict's keys in order, or a string's characters. Null, bools and numbers raise TypeError |
| Probe.CommandArgument | server/app.py:14-16 | the image reaches `docker run` exactly when it is a str without a NUL character. Otherwise subprocess raises TypeError or ValueError before running anything |
| Probe.StderrForLog | server/app.py:23 | decoding stderr for the log raises UnicodeDecodeError exactly when stderr is non-empty and not UTF-8. Empty stderr is not decoded |
| Probe.RunChecked | server/app.py:14-18 | a checked subprocess run completes exactly on exit status 0. Otherwise it raises CalledProcessError carrying that status |
| Probe.ImageContainsMlflow | server/app.py:7-24 | on a non-str image the probe raises TypeError, and on a str holding NUL it raises ValueError; in both cases nothing is run. On any other image it is true exactly when the import command exits with 0. It is false exactly when the status is non-zero and stderr decodes. Otherwise it raises UnicodeDecodeError, from decoding non-UTF-8 stderr after the failure |
| Admission.Build | server/app.py:39-60 | every reply echoes the uid and carries the verdict. Both carry the fixed apiVersion and kind. A status is present iff the verdict is deny, and it is 403 with the fixed message |
| Admission.ResponseJson | server/app.py:43-58 | the inner `response` dict holds the uid and the verdict. Its `status` entry is present exactly when the response has a status, and then holds that status's code and message |
| Admission.StatusEntry | server/app.py:54-57 | the `status` entry is present exactly when the response has a status, and then `status["code"]` and `status["message"]` give that status's code and message |
| Admission.ToJson | server/app.py:39-59 | the reply dict read back by subscripting gives the review's apiVersion, kind, uid and verdict. `response["status"]` resolves exactly when the review has a status, and then yields its code and message |
| Admission.WireShape | server/app.py:39-59 | the reply dict has apiVersion "admission.k8s.io/v1", kind "AdmissionReview", and the echoed uid and verdict. It has no `status` when allowed, and status code 403 with the fixed message when denied |
| Webhook.ParseRequest | server/app.py:33-34 | parsing succeeds iff both the uid path and the container path resolve, and it yields their values. Otherwise it raises the uid path's exception first, then the container path's |
| Webhook.ImageOf | server/app.py:37 | `container.get("image", "")` succeeds exactly on a dict and raises AttributeError otherwise. It yields the stored value of any JSON type, or "" when the key is absent |
| Webhook.ArgumentOf | server/app.py:14-16 | the image `.get` yields (line 37) reaches the `docker run` command line iff the container is a dict whose `image` is absent or a string without NUL. An absent key becomes "". A non-dict raises AttributeError, and any other unusable image raises TypeError or ValueError |
| Webhook.ScanContainers | server/app.py:36-45 | the probed images are those of a prefix of the list, in order, and every one but the last declined. The verdict is allow iff the last one passed, and deny only after every container declined. An exception comes either from the container right after the prefix, whose image could not be passed, after every probed container declined, or from the last probed one, whose stderr did not decode |
| Webhook.Respond | server/app.py:36-60 | after parsing, a reply is well shaped and echoes the parsed uid. An allow reply follows a passing probe, and a deny reply follows only failing probes |
| Webhook.Validate | server/app.py:28-60 | a reply is well shaped and echoes the value at `request.uid`. A parse failure raises that exception with nothing probed. On any review where both paths resolve, whatever else it holds, the run is `Respond` on the values found there |
| Properties.ParseEnvelope | server/app.py:33-34 | the minimal review holding only a uid and a container list at the nested paths resolves both paths and parses to exactly them. The handler's run on it is `Respond` on them |
| Properties.ScanAllowsAtFirstAccept | server/app.py:36-45 | if the first k containers decline and container k passes, the loop allows after probing exactly k+1 images |
| Properties.ScanDeniesWhenAllDecline | server/app.py:36-47 | if every container declines, the loop probes every image and denies |
| Properties.ScanProbesPastDeclines | server/app.py:36-45 | the loop runs every container of a declining prefix, so it probes at least as many images as the prefix is long |
| Properties.ScanRaisesAtFirstRaising | server/app.py:14-38 | if the first k containers decline and container k raises, the loop raises container k's exception. It has probed k images if container k's image could not be passed, else k+1 |
| Properties.ScanAllowedIff | server/app.py:36-45 | the loop allows iff some container passes and every container before it declines |
| Properties.ScanIsAnyOf | server/app.py:36-47 | with no raising container, the loop allows iff some container's image passes the probe |
| Properties.RespondIsAnyOf | server/app.py:33-60 | after parsing, with no raising container, the handler replies with the uid and allows iff some image passes |
| Properties.RespondStopsAtFirstAccept | server/app.py:36-45 | after parsing, the handler runs containers for exactly the images up to and including the first passing one, in list order, then allows |
| Properties.RespondProbesAllWhenNoneAccepts | server/app.py:36-60 | after parsing, when every container declines, every image is probed in list order and the handler denies |
| Properties.RespondRaisesAtFirstRaising | server/app.py:14-38 | after parsing, the first raising container ends the request with its exception and no reply, even when a later image would pass |
| Properties.NulImageRaisesWithoutRunning | server/app.py:14-16 | after k declining containers, a container whose image is a str holding a NUL character ends the request with ValueError and no reply. Only the k images before it were run |
| Properties.UndecodableStderrEndsTheRequest | server/app.py:21-24 | with containers `a` then `b`, where `a` fails with non-UTF-8 stderr and `b` would pass, the request raises UnicodeDecodeError after running only `a` |
| Properties.RespondEmptyListDenies | server/app.py:36-58 | an empty container list (`[]`, `{}` or `""`) is denied with code 403 and the fixed message, echoing the uid, with nothing probed |
| Properties.ValidateMissingPathRaises | server/app.py:33-34 | a missing uid or container path ends in an exception with nothing probed, and no reply is synthesized |
| Properties.MissingImageProbedAsEmpty | server/app.py:37-38 | after k declining containers, a dict container without an `image` key is probed with "" instead of being skipped: the (k+1)-th image probed is "". If "" passes, the handler allows there, and if its stderr does not decode, the request raises there; in both cases k+1 images were probed |

## Left out

- The `docker run` and `docker images` subprocess calls (server/app.py:14-18, 31): the container runtime is replaced by the `docker` oracle. The debug listing has no effect on the decision.
- Probe.ImageContainsMlflow: the oracle always returns an exit, but `docker run` has no timeout (server/app.py:14-18). A container that never exits hangs the request in the source, and the model does not represent that.
- Launch failures of the subprocess call itself, such as a missing docker binary. They propagate uncaught and depend on the host, not on the request.
- PyJson.Json: strings are Dafny strings, which cannot hold a lone surrogate. The JSON decoder can produce one from a `\ud800` escape, and such an image raises UnicodeEncodeError when it is printed or passed to subprocess (server/app.py:9, 14). The model has no such input.
- PyJson.Json: `JObject` does not enforce distinct keys, and `Lookup` takes the first entry with a key. On a document with repeated keys the JSON decoder keeps the last value. The model is faithful only for objects whose keys are distinct.
- Flask routing, the `get_json` body decoding, TLS certificate loading and server binding (server/app.py:2-4, 27-29, 63-64): framework and I/O. The model starts from the decoded JSON value and ends at the reply dict before `jsonify`.
- The `print` logging (server/app.py:9, 19, 22-23, 30, 32): the printed text is not modelled. Two logging steps can change the outcome by raising. The stderr decode at line 23 is the one such step the model can represent, and Probe.StderrForLog models it. The print at line 9 can also raise, on a lone-surrogate image; that case is listed under PyJson.Json above.
- Floating-point JSON numbers: modelled as integers, which behave the same in every position the handler reads.
- deploy/train.py: a training demo script with floating-point numerics, random data and network calls. It is not part of the webhook.

=== FILE: admission.dfy ===
/** The admission-review reply the handler builds: an allow reply without a
    status, or a deny reply with a fixed 403 status. Both echo the request's
    uid and carry the same `apiVersion` and `kind`. */
module Admission {
  import opened Wrappers
  import opened PyJson

  const ApiVersion: string := "admission.k8s.io/v1"
  const Kind: string := "AdmissionReview"
  const DeniedCode: int := 403
  const DeniedMessage: string := "Image does not include mlflow module"

  datatype Status = Status(code: int, message: string)

  /** `uid` is whatever JSON value the request carried; it is echoed, not checked. */
  datatype Response = Response(uid: Json, allowed: bool, status: Option<Status>)

  datatype Review = Review(apiVersion: string, kind: string, response: Response)

  /** The shape every reply of the handler has. */
  ghost predicate WellShaped(r: Review) {
    && r.apiVersion == ApiVersion
    && r.kind == Kind
    && (r.response.allowed <==> r.response.status.None?)
    && (!r.response.allowed ==> r.response.status == Some(Status(DeniedCode, DeniedMessage)))
  }

  /** The reply for a verdict: the allow literal or the deny literal. */
  function Build(uid: Json, allowed: bool): (r: Review)
    ensures WellShaped(r)
    ensures r.response.uid == uid
    ensures r.response.allowed == allowed
  {
    if allowed then
      Review(ApiVersion, Kind, Response(uid, true, None))
    else
      Review(ApiVersion, Kind, Response(uid, false, Some(Status(DeniedCode, DeniedMessage))))
  }

  /** The inner `response` dict: the uid, the verdict, and a `status` entry
      exactly when the response has a status. */
  function ResponseJson(resp: Response): (j: Json)
    ensures Subscript(j, "uid") == Success(resp.uid)
    ensures Subscript(j, "allowed") == Success(JBool(resp.allowed))
    ensures Subscript(j, "status").Success? <==> resp.status.Some?
    ensures resp.status.Some? ==>
              && Subscript(Subscript(j, "status").value, "code") == Success(JNumber(resp.status.value.code))
              && Subscript(Subscript(j, "status").value, "message")
                 == Success(JString(resp.status.value.message))
  {
    var status := StatusEntry(resp.status);
    var allowed := [("allowed", JBool(resp.allowed))] + status;
    SubscriptCons("allowed", JBool(resp.allowed), status, "allowed");
    SubscriptCons("allowed", JBool(resp.allowed), status, "status");
    SubscriptCons("uid", resp.uid, allowed, "uid");
    SubscriptCons("uid", resp.uid, allowed, "allowed");
    SubscriptCons("uid", resp.uid, allowed, "status");
    JObject([("uid", resp.uid)] + allowed)
  }

  /** The `status` entry of a response: absent when the review allows. */
  function StatusEntry(status: Option<Status>): (e: seq<(string, Json)>)
    ensures Subscript(JObject(e), "status").Success? <==> status.Some?
    ensures status.Some? ==>
              && Subscript(Subscript(JObject(e), "status").value, "code") == Success(JNumber(status.value.code))
              && Subscript(Subscript(JObject(e), "status").value, "message")
                 == Success(JString(status.value.message))
  {
    match status
    case None => []
    case Some(st) =>
      var message := [("message", JString(st.message))];
      var body := JObject([("code", JNumber(st.code))] + message);
      SubscriptCons("message", JString(st.message), [], "message");
      SubscriptCons("code", JNumber(st.code), message, "code");
      SubscriptCons("code", JNumber(st.code), message, "message");
      SubscriptCons("status", body, [], "status");
      [("status", body)]
  }

  /** The dict handed to `jsonify`. Reading it back field by field gives the
      review's apiVersion, kind, uid and verdict; the `status` entry is there
      exactly when the review has a status, and then holds its code and
      message. */
  function ToJson(r: Review): (j: Json)
    ensures Subscript(j, "apiVersion") == Success(JString(r.apiVersion))
    ensures Subscript(j, "kind") == Success(JString(r.kind))
    ensures Subscript(j, "response").Success?
    ensures Subscript(Subscript(j, "response").value, "uid") == Success(r.response.uid)
    ensures Subscript(Subscript(j, "response").value, "allowed") == Success(JBool(r.response.allowed))
    ensures Subscript(Subscript(j, "response").value, "status").Success? <==> r.response.status.Some?
    ensures r.response.status.Some? ==>
              && Subscript(Subscript(Subscript(j, "response").value, "status").value, "code")
                 == Success(JNumber(r.response.status.value.code))
              && Subscript(Subscript(Subscript(j, "response").value, "status").value, "message")
                 == Success(JString(r.response.status.value.message))
  {
    var resp := ResponseJson(r.response);
    var response := [("response", resp)];
    var kind := [("kind", JString(r.kind))] + response;
    SubscriptCons("response", resp, [], "response");
    SubscriptCons("kind", JString(r.kind), response, "kind");
    SubscriptCons("kind", JString(r.kind), response, "response");
    SubscriptCons("apiVersion", JString(r.apiVersion), kind, "apiVersion");
    SubscriptCons("apiVersion", JString(r.apiVersion), kind, "kind");
    SubscriptCons("apiVersion", JString(r.apiVersion), kind, "response");
    JObject([("apiVersion", JString(r.apiVersion))] + kind)
  }

  /** The wire form of every reply the handler builds: the constant envelope,
      the echoed uid, the verdict, and a 403 status exactly when the verdict
      is deny. */
  lemma WireShape(r: Review)
    requires WellShaped(r)
    ensures Subscript(ToJson(r), "apiVersion") == Success(JString("admission.k8s.io/v1"))
    ensures Subscript(ToJson(r), "kind") == Success(JString("AdmissionReview"))
    ensures Subscript(Subscript(ToJson(r), "response").value, "uid") == Success(r.response.uid)
    ensures Subscript(Subscript(ToJson(r), "response").value, "allowed")
            == Success(JBool(r.response.allowed))
    ensures r.response.allowed ==>
              Subscript(Subscript(ToJson(r), "response").value, "status")
              == Failure(KeyError("status"))
    ensures !r.response.allowed ==>
              && Subscript(Subscript(Subscript(ToJson(r), "response").value, "status").value, "code")
                 == Success(JNumber(403))
              && Subscript(Subscript(Subscript(ToJson(r), "response").value, "status").value, "message")
                 == Success(JString("Image does not include mlflow module"))
  {
  }
}

=== FILE: probe.dfy ===
/** `image_contains_mlflow`: run `python3 -c "import mlflow"` in a throw-away
    container of the image and report whether the import succeeded.

    Running the container is outside the model. The caller passes an oracle
    `docker` that gives, for an image reference, how the `docker run` command
    would end: its return code and what its captured stderr holds. */
module Probe {
  import opened Wrappers
  import opened PyJson

  /** The captured stderr of the command, as far as the probe looks at it:
      empty (never decoded), valid UTF-8, or bytes that are not UTF-8. */
  datatype Stderr = NoStderr | Utf8Stderr(text: string) | NonUtf8Stderr

  datatype Exit = Exit(returncode: int, stderr: Stderr)

  /** The conversion `subprocess.run` applies to the image before it launches
      anything: the argument must be a str, and a str with a NUL character
      cannot be passed to a process. */
  function CommandArgument(image: Json): (r: Result<string, PyError>)
    ensures r.Success? <==> image.JString? && '\0' !in image.s
    ensures r.Success? ==> r.value == image.s
    ensures r.Failure? ==>
              r.error == (if image.JString? then EmbeddedNullValueError else ArgumentTypeError)
  {
    match image
    case JString(s) => if '\0' in s then Failure(EmbeddedNullValueError) else Success(s)
    case _ => Failure(ArgumentTypeError)
  }

  /** How `subprocess.run(..., check=True)` returns: normally, or by raising
      `CalledProcessError` with the command's non-zero return code. */
  datatype Completion = Completed | CalledProcessError(returncode: int)

  function RunChecked(returncode: int): (c: Completion)
    ensures c.Completed? <==> returncode == 0
    ensures c.CalledProcessError? ==> c.returncode == returncode
  {
    if returncode == 0 then Completed else CalledProcessError(returncode)
  }

  /** `e.stderr.decode() if e.stderr else "no stderr"` in the handler of
      `CalledProcessError`: a strict UTF-8 decode of non-empty stderr. */
  function StderrForLog(stderr: Stderr): (r: Result<string, PyError>)
    ensures r.Failure? <==> stderr == NonUtf8Stderr
    ensures r.Failure? ==> r.error == UnicodeDecodeError
    ensures stderr == NoStderr ==> r == Success("no stderr")
    ensures stderr.Utf8Stderr? ==> r == Success(stderr.text)
  {
    match stderr
    case NoStderr => Success("no stderr")
    case Utf8Stderr(text) => Success(text)
    case NonUtf8Stderr => Failure(UnicodeDecodeError)
  }

  /** The probe. `subprocess.run` first converts the image into a command
      argument, raising TypeError or ValueError before anything runs when it
      cannot. Otherwise the probe answers `true` on return code 0. It catches
      `CalledProcessError` and answers `false`, unless decoding the stderr
      for the log raises inside the handler; that exception escapes. */
  function ImageContainsMlflow(image: Json, docker: string -> Exit): (r: Result<bool, PyError>)
    ensures r == Success(true) <==>
              image.JString? && '\0' !in image.s && docker(image.s).returncode == 0
    ensures r == Success(false) <==>
              && image.JString? && '\0' !in image.s
              && docker(image.s).returncode != 0
              && docker(image.s).stderr != NonUtf8Stderr
    ensures !image.JString? ==> r == Failure(ArgumentTypeError)
    ensures image.JString? && '\0' in image.s ==> r == Failure(EmbeddedNullValueError)
    ensures image.JString? && '\0' !in image.s && r.Failure? ==> r.error == UnicodeDecodeError
  {
    var arg :- CommandArgument(image);
    var exit := docker(arg);
    match RunChecked(exit.returncode)
    case Completed => Success(true)
    case CalledProcessError(_) =>
      (match StderrForLog(exit.stderr)
       case Failure(e) => Failure(e)
       case Success(_) => Success(false))
  }
}

=== FILE: properties.dfy ===
/** What the handler promises, stated over all inputs: the any-of rule, the
    short-circuit order of the probes, the exception that ends the loop at
    the first raising container, the empty-list denial, the missing image
    defaulting to "", and the absence of a reply when the request's paths
    are missing. */
module Properties {
  import opened Wrappers
  import opened PyJson
  import opened Probe
  import opened Admission
  import opened Webhook

  /** The smallest admission review the handler reads: the uid and the
      container list at their nested paths and nothing else. It shows that
      the two paths can resolve; `Validate`'s own contract carries every
      lemma below about `Respond` over to any review, whatever other fields
      it holds. */
  function Envelope(uid: Json, containers: Json): (j: Json) {
    JObject([("request", JObject([("uid", uid), ("object", Nest(ContainersPath[2..], containers))]))])
  }

  /** `leaf` wrapped in one single-entry dict per key of `path`, outermost first. */
  function Nest(path: seq<string>, leaf: Json): (j: Json)
    decreases |path|
  {
    if |path| == 0 then leaf else JObject([(path[0], Nest(path[1..], leaf))])
  }

  /** Following a path through the dicts that nest it reaches the leaf. */
  lemma {:induction false} AtNest(path: seq<string>, leaf: Json)
    ensures At(Nest(path, leaf), path) == Success(leaf)
    decreases |path|
  {
    if |path| > 0 {
      SubscriptCons(path[0], Nest(path[1..], leaf), [], path[0]);
      assert [(path[0], Nest(path[1..], leaf))] + [] == [(path[0], Nest(path[1..], leaf))];
      AtNest(path[1..], leaf);
    }
  }

  /** The uid path of the envelope resolves to its uid. */
  lemma EnvelopeUid(uid: Json, containers: Json)
    ensures At(Envelope(uid, containers), UidPath) == Success(uid)
  {
    var request := Envelope(uid, containers).fields[0].1;
    assert Subscript(Envelope(uid, containers), "request") == Success(request);
    assert Subscript(request, "uid") == Success(uid);
    assert At(uid, UidPath[2..]) == Success(uid);
    assert At(request, UidPath[1..]) == Success(uid);
  }

  /** The containers path of the envelope resolves to its containers. */
  lemma EnvelopeContainers(uid: Json, containers: Json)
    ensures At(Envelope(uid, containers), ContainersPath) == Success(containers)
  {
    var nested := Nest(ContainersPath[2..], containers);
    var request := JObject([("uid", uid), ("object", nested)]);
    assert Subscript(Envelope(uid, containers), "request") == Success(request);
    assert Lookup(request.fields[1..], "object") == Some(nested);
    assert Subscript(request, "object") == Success(nested);
    AtNest(ContainersPath[2..], containers);
    assert ContainersPath[1..][1..] == ContainersPath[2..];
    assert At(request, ContainersPath[1..]) == Success(containers);
  }

  lemma ParseEnvelope(uid: Json, containers: Json, docker: string -> Exit)
    ensures At(Envelope(uid, containers), UidPath) == Success(uid)
    ensures At(Envelope(uid, containers), ContainersPath) == Success(containers)
    ensures ParseRequest(Envelope(uid, containers)) == Success(Request(uid, containers))
    ensures Validate(Envelope(uid, containers), docker) == Respond(Request(uid, containers), docker)
  {
    EnvelopeUid(uid, containers);
    EnvelopeContainers(uid, containers);
  }

  /** One turn of the loop on its first container: an accepting one stops it
      with allow, a declining one was run and the loop goes on with the rest. */
  lemma ScanStep(cs: seq<Json>, docker: string -> Exit)
    requires |cs| > 0
    ensures Accepts(cs[0], docker) ==>
              ScanContainers(cs, docker) == Scan(Success(true), [ArgumentOf(cs[0]).value])
    ensures Declines(cs[0], docker) ==>
              ScanContainers(cs, docker) ==
              Scan(ScanContainers(cs[1..], docker).verdict,
                   [ArgumentOf(cs[0]).value] + ScanContainers(cs[1..], docker).probed)
  {
    if Accepts(cs[0], docker) || Declines(cs[0], docker) {
      var image := ImageOf(cs[0]).value;
      assert CommandArgument(image) == ArgumentOf(cs[0]);
    }
  }

  /** The loop allows at the first accepting container and has probed exactly
      the images of the containers up to and including it. */
  lemma {:induction false} ScanAllowsAtFirstAccept(cs: seq<Json>, docker: string -> Exit, k: nat)
    requires k < |cs|
    requires forall j :: 0 <= j < k ==> Declines(cs[j], docker)
    requires Accepts(cs[k], docker)
    ensures ScanContainers(cs, docker).verdict == Success(true)
    ensures |ScanContainers(cs, docker).probed| == k + 1
  {
    if k > 0 {
      var rest := cs[1..];
      forall j | 0 <= j < k - 1 ensures Declines(rest[j], docker) {
        assert rest[j] == cs[j + 1];
      }
      assert rest[k - 1] == cs[k];
      ScanAllowsAtFirstAccept(rest, docker, k - 1);
      assert Declines(cs[0], docker);
      ScanStep(cs, docker);
    } else {
      ScanStep(cs, docker);
    }
  }

  /** When every container declines, the loop probes every image and denies. */
  lemma {:induction false} ScanDeniesWhenAllDecline(cs: seq<Json>, docker: string -> Exit)
    requires forall j :: 0 <= j < |cs| ==> Declines(cs[j], docker)
    ensures ScanContainers(cs, docker).verdict == Success(false)
    ensures |ScanContainers(cs, docker).probed| == |cs|
  {
    if |cs| > 0 {
      var rest := cs[1..];
      forall j | 0 <= j < |rest| ensures Declines(rest[j], docker) {
        assert rest[j] == cs[j + 1];
      }
      ScanDeniesWhenAllDecline(rest, docker);
      assert Declines(cs[0], docker);
      ScanStep(cs, docker);
    }
  }

  /** The loop runs past every container of a declining prefix: it probes at
      least as many images as the prefix is long. */
  lemma {:induction false} ScanProbesPastDeclines(cs: seq<Json>, docker: string -> Exit, n: nat)
    requires n <= |cs|
    requires forall j :: 0 <= j < n ==> Declines(cs[j], docker)
    ensures |ScanContainers(cs, docker).probed| >= n
  {
    if n > 0 {
      var rest := cs[1..];
      forall j | 0 <= j < n - 1 ensures Declines(rest[j], docker) {
        assert rest[j] == cs[j + 1];
      }
      ScanProbesPastDeclines(rest, docker, n - 1);
      assert Declines(cs[0], docker);
      ScanStep(cs, docker);
    }
  }

  /** The first raising container ends the loop with its exception. Its image
      was run only if the exception came from decoding the stderr; an image
      that cannot be passed to `docker run` is never run. Containers after it
      are not looked at. */
  lemma {:induction false} ScanRaisesAtFirstRaising(cs: seq<Json>, docker: string -> Exit, k: nat)
    requires k < |cs|
    requires forall j :: 0 <= j < k ==> Declines(cs[j], docker)
    requires Raises(cs[k], docker)
    ensures ScanContainers(cs, docker).verdict == Failure(RaisedBy(cs[k], docker))
    ensures |ScanContainers(cs, docker).probed| == (if ArgumentOf(cs[k]).Failure? then k else k + 1)
  {
    if k > 0 {
      var rest := cs[1..];
      forall j | 0 <= j < k - 1 ensures Declines(rest[j], docker) {
        assert rest[j] == cs[j + 1];
      }
      assert rest[k - 1] == cs[k];
      ScanRaisesAtFirstRaising(rest, docker, k - 1);
      assert Declines(cs[0], docker);
      ScanStep(cs, docker);
    }
  }

  /** The loop allows exactly when some container accepts and every container
      before it declines. */
  lemma {:induction false} ScanAllowedIff(cs: seq<Json>, docker: string -> Exit)
    ensures ScanContainers(cs, docker).verdict == Success(true) <==>
              exists k :: 0 <= k < |cs| && Accepts(cs[k], docker) &&
                forall j :: 0 <= j < k ==> Declines(cs[j], docker)
  {
    var scan := ScanContainers(cs, docker);
    if scan.verdict == Success(true) {
      var k := |scan.probed| - 1;
      assert Accepts(cs[k], docker);
      assert forall j :: 0 <= j < k ==> Declines(cs[j], docker);
    }
    if exists k :: 0 <= k < |cs| && Accepts(cs[k], docker) &&
         forall j :: 0 <= j < k ==> Declines(cs[j], docker) {
      var k :| 0 <= k < |cs| && Accepts(cs[k], docker) &&
        forall j :: 0 <= j < k ==> Declines(cs[j], docker);
      ScanAllowsAtFirstAccept(cs, docker, k);
    }
  }

  /** With no container that raises, the loop is the any-of rule: it allows
      iff some container's image passes the probe. */
  lemma {:induction false} ScanIsAnyOf(cs: seq<Json>, docker: string -> Exit)
    requires forall j :: 0 <= j < |cs| ==> !Raises(cs[j], docker)
    ensures ScanContainers(cs, docker).verdict ==
              Success(exists i :: 0 <= i < |cs| && Accepts(cs[i], docker))
  {
    if exists i :: 0 <= i < |cs| && Accepts(cs[i], docker) {
      var k := FirstAccept(cs, docker);
      ScanAllowsAtFirstAccept(cs, docker, k);
    } else {
      assert forall j :: 0 <= j < |cs| ==> Declines(cs[j], docker);
      ScanDeniesWhenAllDecline(cs, docker);
    }
  }

  /** The index of the first accepting container, when none raises. */
  lemma {:induction false} FirstAccept(cs: seq<Json>, docker: string -> Exit) returns (k: nat)
    requires forall j :: 0 <= j < |cs| ==> !Raises(cs[j], docker)
    requires exists i :: 0 <= i < |cs| && Accepts(cs[i], docker)
    ensures k < |cs| && Accepts(cs[k], docker)
    ensures forall j :: 0 <= j < k ==> Declines(cs[j], docker)
  {
    var i :| 0 <= i < |cs| && Accepts(cs[i], docker);
    Classify(cs[0], docker);
    if Accepts(cs[0], docker) {
      k := 0;
    } else {
      var rest := cs[1..];
      assert rest[i - 1] == cs[i];
      forall j | 0 <= j < |rest| ensures !Raises(rest[j], docker) {
        assert rest[j] == cs[j + 1];
      }
      var first := FirstAccept(rest, docker);
      k := first + 1;
      assert cs[k] == rest[first];
      forall j | 0 <= j < k ensures Declines(cs[j], docker) {
        if j > 0 {
          assert cs[j] == rest[j - 1];
        }
      }
    }
  }

  /** After parsing, with no container that raises: the handler replies,
      echoes the uid, and allows iff some image passes. */
  lemma {:induction false} RespondIsAnyOf(uid: Json, cs: seq<Json>, docker: string -> Exit)
    requires forall j :: 0 <= j < |cs| ==> !Raises(cs[j], docker)
    ensures Respond(Request(uid, JArray(cs)), docker).outcome ==
              Replied(Build(uid, exists i :: 0 <= i < |cs| && Accepts(cs[i], docker)))
  {
    ScanIsAnyOf(cs, docker);
  }

  /** Short-circuit after parsing: the handler runs containers for exactly the
      images up to and including the first passing one, then allows. */
  lemma {:induction false} RespondStopsAtFirstAccept(uid: Json, cs: seq<Json>, docker: string -> Exit, k: nat)
    requires k < |cs|
    requires forall j :: 0 <= j < k ==> Declines(cs[j], docker)
    requires Accepts(cs[k], docker)
    ensures Respond(Request(uid, JArray(cs)), docker).outcome == Replied(Build(uid, true))
    ensures |Respond(Request(uid, JArray(cs)), docker).probed| == k + 1
    ensures forall j :: 0 <= j <= k ==>
              ArgumentOf(cs[j]) == Success(Respond(Request(uid, JArray(cs)), docker).probed[j])
  {
    ScanAllowsAtFirstAccept(cs, docker, k);
  }

  /** After parsing: when every container declines, every image is probed, in
      list order, and the handler denies. */
  lemma {:induction false} RespondProbesAllWhenNoneAccepts(uid: Json, cs: seq<Json>, docker: string -> Exit)
    requires forall j :: 0 <= j < |cs| ==> Declines(cs[j], docker)
    ensures Respond(Request(uid, JArray(cs)), docker).outcome == Replied(Build(uid, false))
    ensures |Respond(Request(uid, JArray(cs)), docker).probed| == |cs|
    ensures forall j :: 0 <= j < |cs| ==>
              ArgumentOf(cs[j]) == Success(Respond(Request(uid, JArray(cs)), docker).probed[j])
  {
    ScanDeniesWhenAllDecline(cs, docker);
  }

  /** After parsing: the first raising container ends the request with its
      exception and no reply, even when a later image would pass. */
  lemma {:induction false} RespondRaisesAtFirstRaising(uid: Json, cs: seq<Json>, docker: string -> Exit, k: nat)
    requires k < |cs|
    requires forall j :: 0 <= j < k ==> Declines(cs[j], docker)
    requires Raises(cs[k], docker)
    ensures Respond(Request(uid, JArray(cs)), docker).outcome == Raised(RaisedBy(cs[k], docker))
    ensures |Respond(Request(uid, JArray(cs)), docker).probed| ==
              (if ArgumentOf(cs[k]).Failure? then k else k + 1)
  {
    ScanRaisesAtFirstRaising(cs, docker, k);
  }

  /** A container list with nothing to iterate (`[]`, `{}` or `""`) is denied
      with the fixed 403 status, and no container is run. */
  lemma RespondEmptyListDenies(uid: Json, containers: Json, docker: string -> Exit)
    requires Iterate(containers) == Success([])
    ensures Respond(Request(uid, containers), docker) ==
              Run(Replied(Review("admission.k8s.io/v1", "AdmissionReview",
                    Response(uid, false, Some(Status(403, "Image does not include mlflow module"))))), [])
  {
  }

  /** A missing uid or container path raises before any container is run:
      there is no reply at all, not a synthesized one. */
  lemma ValidateMissingPathRaises(req: Json, docker: string -> Exit)
    requires At(req, UidPath).Failure? || At(req, ContainersPath).Failure?
    ensures Validate(req, docker).outcome.Raised?
    ensures Validate(req, docker).probed == []
  {
  }

  /** A container without an `image` key is probed with "" rather than
      skipped: once the loop reaches it, its probe runs "", and when that
      probe passes or its stderr does not decode, the request ends there. */
  lemma {:induction false} MissingImageProbedAsEmpty(uid: Json, cs: seq<Json>, docker: string -> Exit, k: nat)
    requires k < |cs|
    requires forall j :: 0 <= j < k ==> Declines(cs[j], docker)
    requires cs[k].JObject? && !HasKey(cs[k].fields, "image")
    ensures |Respond(Request(uid, JArray(cs)), docker).probed| > k
    ensures Respond(Request(uid, JArray(cs)), docker).probed[k] == ""
    ensures docker("").returncode == 0 ==>
              Respond(Request(uid, JArray(cs)), docker).outcome == Replied(Build(uid, true))
              && |Respond(Request(uid, JArray(cs)), docker).probed| == k + 1
    ensures docker("").returncode != 0 && docker("").stderr == NonUtf8Stderr ==>
              Respond(Request(uid, JArray(cs)), docker).outcome == Raised(UnicodeDecodeError)
              && |Respond(Request(uid, JArray(cs)), docker).probed| == k + 1
  {
    assert ArgumentOf(cs[k]) == Success("");
    Classify(cs[k], docker);
    if Accepts(cs[k], docker) {
      ScanAllowsAtFirstAccept(cs, docker, k);
    } else if Raises(cs[k], docker) {
      ScanRaisesAtFirstRaising(cs, docker, k);
    } else {
      ScanProbesPastDeclines(cs, docker, k + 1);
    }
  }

  /** Two containers `a` and `b`: `a`'s import fails with stderr that is not
      UTF-8, and `b`'s would pass. Decoding `a`'s stderr for the log raises,
      so the request ends without a reply and `b` is never run. */
  lemma UndecodableStderrEndsTheRequest(uid: Json, docker: string -> Exit)
    requires docker("a") == Exit(1, NonUtf8Stderr) && docker("b") == Exit(0, NoStderr)
    ensures Respond(Request(uid, JArray([JObject([("image", JString("a"))]),
                                         JObject([("image", JString("b"))])])), docker)
            == Run(Raised(UnicodeDecodeError), ["a"])
  {
    var cs := [JObject([("image", JString("a"))]), JObject([("image", JString("b"))])];
    assert ArgumentOf(cs[0]) == Success("a");
    assert Raises(cs[0], docker);
    RespondRaisesAtFirstRaising(uid, cs, docker, 0);
  }

  /** An image holding a NUL character is rejected by `subprocess.run` before
      its container starts: when the loop reaches such a container, the
      request ends with ValueError, and only the declining containers before
      it were run. */
  lemma {:induction false} NulImageRaisesWithoutRunning(uid: Json, cs: seq<Json>, docker: string -> Exit, k: nat)
    requires k < |cs|
    requires forall j :: 0 <= j < k ==> Declines(cs[j], docker)
    requires ImageOf(cs[k]).Success? && ImageOf(cs[k]).value.JString? && '\0' in ImageOf(cs[k]).value.s
    ensures Respond(Request(uid, JArray(cs)), docker).outcome == Raised(EmbeddedNullValueError)
    ensures |Respond(Request(uid, JArray(cs)), docker).probed| == k
  {
    assert ArgumentOf(cs[k]) == Failure(EmbeddedNullValueError);
    RespondRaisesAtFirstRaising(uid, cs, docker, k);
  }
}

=== FILE: pyjson.dfy ===
/** The decoded admission-review document as the handler sees it after
    `request.get_json()`: JSON objects are Python dicts, arrays are lists.
    The three operations the handler applies to it are modelled with their
    Python semantics, including the exception each raises. */
module PyJson {
  import opened Wrappers

  /** A dict keeps its keys in insertion order. A dict never repeats a key;
      `JObject` does not enforce that, and `Lookup` returns the first entry
      with the key, which is that dict's value only when keys are distinct.
      JSON numbers are modelled as integers: a float behaves like an integer in
      every position the handler uses. */
  datatype Json =
    | JNull
    | JBool(b: bool)
    | JNumber(n: int)
    | JString(s: string)
    | JArray(items: seq<Json>)
    | JObject(fields: seq<(string, Json)>)

  /** The exceptions the handler can raise. None of them is caught, so each
      one ends the request without a response body built by the handler. */
  datatype PyError =
    | KeyError(key: string)   // `d["k"]` on a dict without "k"
    | SubscriptTypeError      // `v["k"]` on a value that is not a dict
    | IterationTypeError      // `for x in v` on null, a bool or a number
    | AttributeError          // `x.get(...)` on a value that is not a dict
    | ArgumentTypeError       // a subprocess argument that is not a str
    | EmbeddedNullValueError  // a subprocess argument holding a NUL character
    | UnicodeDecodeError      // `bytes.decode()` on bytes that are not UTF-8

  predicate HasKey(fields: seq<(string, Json)>, key: string) {
    exists i :: 0 <= i < |fields| && fields[i].0 == key
  }

  /** The value stored under `key`, if any. */
  function Lookup(fields: seq<(string, Json)>, key: string): (r: Option<Json>)
    ensures r.Some? <==> HasKey(fields, key)
    ensures r.Some? ==>
      exists i :: 0 <= i < |fields| && fields[i] == (key, r.value) &&
        forall j :: 0 <= j < i ==> fields[j].0 != key
  {
    if |fields| == 0 then None
    else if fields[0].0 == key then Some(fields[0].1)
    else
      var r := Lookup(fields[1..], key);
      assert HasKey(fields[1..], key) ==> HasKey(fields, key);
      assert HasKey(fields, key) ==> HasKey(fields[1..], key) by {
        if HasKey(fields, key) {
          var i :| 0 <= i < |fields| && fields[i].0 == key;
          assert fields[1..][i - 1].0 == key;
        }
      }
      if r.Some? then
        var i :| 0 <= i < |fields[1..]| && fields[1..][i] == (key, r.value) &&
          forall j :: 0 <= j < i ==> fields[1..][j].0 != key;
        assert fields[i + 1] == (key, r.value);
        assert forall j :: 0 <= j < i + 1 ==> fields[j].0 != key by {
          forall j | 0 <= j < i + 1 ensures fields[j].0 != key {
            if j > 0 { assert fields[j] == fields[1..][j - 1]; }
          }
        }
        r
      else r
  }

  /** Python's `v[key]` with a str key. */
  function Subscript(v: Json, key: string): (r: Result<Json, PyError>)
    ensures r.Success? <==> v.JObject? && HasKey(v.fields, key)
    ensures r.Success? ==> (key, r.value) in v.fields
    ensures r.Failure? ==> r.error == (if v.JObject? then KeyError(key) else SubscriptTypeError)
  {
    match v
    case JObject(fields) =>
      (match Lookup(fields, key)
       case Some(x) => Success(x)
       case None => Failure(KeyError(key)))
    case _ => Failure(SubscriptTypeError)
  }

  /** Subscripting an object looks at its first entry, then at the rest. */
  lemma SubscriptCons(key: string, value: Json, rest: seq<(string, Json)>, k: string)
    ensures Subscript(JObject([(key, value)] + rest), k) ==
              if key == k then Success(value)
              else if Subscript(JObject(rest), k).Success? then Subscript(JObject(rest), k)
              else Failure(KeyError(k))
  {
    assert ([(key, value)] + rest)[1..] == rest;
  }

  /** Python's `v.get(key, default)`: only a dict has a `get` method. */
  function Get(v: Json, key: string, default: Json): (r: Result<Json, PyError>)
    ensures r.Success? <==> v.JObject?
    ensures v.JObject? && !HasKey(v.fields, key) ==> r == Success(default)
    ensures v.JObject? && HasKey(v.fields, key) ==> (key, r.value) in v.fields
    ensures r.Failure? ==> r.error == AttributeError
  {
    match v
    case JObject(fields) =>
      (match Lookup(fields, key)
       case Some(x) => Success(x)
       case None => Success(default))
    case _ => Failure(AttributeError)
  }

  /** The elements Python's `for x in v` visits: a list's items, a dict's keys
      in insertion order, a string's one-character strings. */
  function Iterate(v: Json): (r: Result<seq<Json>, PyError>)
    ensures r.Success? <==> v.JArray? || v.JObject? || v.JString?
    ensures r.Failure? ==> r.error == IterationTypeError
    ensures v.JArray? ==> r == Success(v.items)
    ensures v.JObject? ==>
              && |r.value| == |v.fields|
              && forall i :: 0 <= i < |v.fields| ==> r.value[i] == JString(v.fields[i].0)
    ensures v.JString? ==>
              && |r.value| == |v.s|
              && forall i :: 0 <= i < |v.s| ==> r.value[i] == JString([v.s[i]])
  {
    match v
    case JArray(items) => Success(items)
    case JObject(fields) => Success(seq(|fields|, i requires 0 <= i < |fields| => JString(fields[i].0)))
    case JString(s) => Success(seq(|s|, i requires 0 <= i < |s| => JString([s[i]])))
    case _ => Failure(IterationTypeError)
  }
}

=== FILE: webhook.dfy ===
/** The `/validate` handler: read the uid and the container list from the
    admission review, probe the containers' images in order, and reply allow
    at the first image that passes or deny when none does. */
module Webhook {
  import opened Wrappers
  import opened PyJson
  import opened Probe
  import opened Admission

  const UidPath: seq<string> := ["request", "uid"]
  const ContainersPath: seq<string> :=
    ["request", "object", "spec", "template", "spec", "containers"]

  /** Repeated subscripting `v[path[0]][path[1]]...`, stopping at the first
      subscript that raises. */
  function At(v: Json, path: seq<string>): (r: Result<Json, PyError>)
    decreases |path|
  {
    if |path| == 0 then Success(v)
    else
      match Subscript(v, path[0])
      case Failure(e) => Failure(e)
      case Success(w) => At(w, path[1..])
  }

  /** The two values the handler reads before probing anything. */
  datatype Request = Request(uid: Json, containers: Json)

  /** The uid is read first, then the container list; either subscript chain
      may raise, and the first exception raised is the one that escapes. */
  function ParseRequest(req: Json): (r: Result<Request, PyError>)
    ensures r.Success? <==> At(req, UidPath).Success? && At(req, ContainersPath).Success?
    ensures r.Success? ==>
              r.value == Request(At(req, UidPath).value, At(req, ContainersPath).value)
    ensures r.Failure? ==>
              r.error == (if At(req, UidPath).Failure? then At(req, UidPath).error
                          else At(req, ContainersPath).error)
  {
    var request :- Subscript(req, "request");
    var uid :- Subscript(request, "uid");
    var obj :- Subscript(request, "object");
    var spec :- Subscript(obj, "spec");
    var template :- Subscript(spec, "template");
    var podSpec :- Subscript(template, "spec");
    var containers :- Subscript(podSpec, "containers");
    Success(Request(uid, containers))
  }

  /** `container.get("image", "")`: any JSON value, or "" when the key is
      absent. Only a dict has `get`. */
  function ImageOf(container: Json): (r: Result<Json, PyError>)
    ensures r.Success? <==> container.JObject?
    ensures container.JObject? && !HasKey(container.fields, "image") ==> r == Success(JString(""))
    ensures container.JObject? && HasKey(container.fields, "image") ==>
              ("image", r.value) in container.fields
    ensures r.Failure? ==> r.error == AttributeError
  {
    Get(container, "image", JString(""))
  }

  /** The str a container's image becomes on the `docker run` command line,
      or the exception raised on the way: `.get` on a non-dict, or an image
      `subprocess.run` cannot pass to a process. */
  function ArgumentOf(container: Json): (r: Result<string, PyError>)
    ensures r.Success? <==>
              && container.JObject?
              && (|| Lookup(container.fields, "image").None?
                  || (&& Lookup(container.fields, "image").value.JString?
                      && '\0' !in Lookup(container.fields, "image").value.s))
    ensures container.JObject? && !HasKey(container.fields, "image") ==> r == Success("")
    ensures r.Success? && HasKey(container.fields, "image") ==>
              ("image", JString(r.value)) in container.fields
    ensures r.Failure? && !container.JObject? ==> r.error == AttributeError
    ensures r.Failure? && container.JObject? ==>
              r.error in {ArgumentTypeError, EmbeddedNullValueError}
  {
    var image :- ImageOf(container);
    CommandArgument(image)
  }

  /** A container that ends the loop with an allow reply. */
  ghost predicate Accepts(container: Json, docker: string -> Exit) {
    ArgumentOf(container).Success? && docker(ArgumentOf(container).value).returncode == 0
  }

  /** A container the loop passes over: its image is run, the import fails,
      and the probe answers `false`. */
  ghost predicate Declines(container: Json, docker: string -> Exit) {
    && ArgumentOf(container).Success?
    && docker(ArgumentOf(container).value).returncode != 0
    && docker(ArgumentOf(container).value).stderr != NonUtf8Stderr
  }

  /** A container that ends the loop with an exception: it is not a dict, its
      image cannot be passed to `docker run`, or the import fails and the
      stderr does not decode. Every container accepts, declines or raises,
      and only one of these. */
  ghost predicate Raises(container: Json, docker: string -> Exit) {
    || ArgumentOf(container).Failure?
    || (&& docker(ArgumentOf(container).value).returncode != 0
        && docker(ArgumentOf(container).value).stderr == NonUtf8Stderr)
  }

  /** Every container accepts, declines or raises, and only one of these. */
  lemma Classify(container: Json, docker: string -> Exit)
    ensures Accepts(container, docker) || Declines(container, docker) || Raises(container, docker)
    ensures !(Accepts(container, docker) && Declines(container, docker))
    ensures !(Accepts(container, docker) && Raises(container, docker))
    ensures !(Declines(container, docker) && Raises(container, docker))
  {
  }

  /** The exception a raising container raises. */
  ghost function RaisedBy(container: Json, docker: string -> Exit): PyError
    requires Raises(container, docker)
  {
    if ArgumentOf(container).Failure? then ArgumentOf(container).error else UnicodeDecodeError
  }

  /** The probe's answer on a dict container is the three-way split above:
      `true` on an accepting container, `false` on a declining one, and the
      container's own exception on a raising one. */
  lemma ProbeOutcome(container: Json, docker: string -> Exit)
    requires ImageOf(container).Success?
    ensures CommandArgument(ImageOf(container).value) == ArgumentOf(container)
    ensures ImageContainsMlflow(ImageOf(container).value, docker) == Success(true)
            <==> Accepts(container, docker)
    ensures ImageContainsMlflow(ImageOf(container).value, docker) == Success(false)
            <==> Declines(container, docker)
    ensures Raises(container, docker) ==>
              ImageContainsMlflow(ImageOf(container).value, docker)
              == Failure(RaisedBy(container, docker))
  {
  }

  /** What the container loop did: its verdict (or the exception that ended
      it) and the images it ran a container for, in order. */
  datatype Scan = Scan(verdict: Result<bool, PyError>, probed: seq<string>)

  /** The images a run of the container loop over `cs` probed: those of a
      prefix of `cs`, in order, every one of them but the last declining. */
  ghost predicate ProbesPrefix(cs: seq<Json>, docker: string -> Exit, r: Scan) {
    && |r.probed| <= |cs|
    && (forall j :: 0 <= j < |r.probed| ==> ArgumentOf(cs[j]) == Success(r.probed[j]))
    && (forall j :: 0 <= j < |r.probed| - 1 ==> Declines(cs[j], docker))
  }

  /** The verdict of a run of the container loop over `cs`: allow exactly
      when the last probed container accepts, deny only when every container
      declines, and otherwise the exception of the container it stopped at. */
  ghost predicate VerdictExplained(cs: seq<Json>, docker: string -> Exit, r: Scan) {
    && (r.verdict == Success(true) <==> 0 < |r.probed| <= |cs| && Accepts(cs[|r.probed| - 1], docker))
    && (r.verdict == Success(false) ==>
          |r.probed| == |cs| && forall j :: 0 <= j < |cs| ==> Declines(cs[j], docker))
    && (r.verdict.Failure? ==>
          || (&& |r.probed| < |cs|
              && ArgumentOf(cs[|r.probed|]) == Failure(r.verdict.error)
              && forall j :: 0 <= j < |r.probed| ==> Declines(cs[j], docker))
          || (&& 0 < |r.probed| <= |cs|
              && Raises(cs[|r.probed| - 1], docker)
              && r.verdict.error == UnicodeDecodeError))
  }

  /** A declining first container puts its image in front of the images the
      loop runs for the rest. */
  lemma {:induction false} DeclineStepPrefix(cs: seq<Json>, docker: string -> Exit, rest: Scan)
    requires |cs| > 0 && Declines(cs[0], docker)
    requires ProbesPrefix(cs[1..], docker, rest)
    ensures ProbesPrefix(cs, docker, Scan(rest.verdict, [ArgumentOf(cs[0]).value] + rest.probed))
  {
    var probed := [ArgumentOf(cs[0]).value] + rest.probed;
    forall j | 0 <= j < |probed| ensures ArgumentOf(cs[j]) == Success(probed[j]) {
      if j > 0 {
        assert probed[j] == rest.probed[j - 1] && cs[j] == cs[1..][j - 1];
      }
    }
    forall j | 0 <= j < |probed| - 1 ensures Declines(cs[j], docker) {
      if j > 0 {
        assert cs[j] == cs[1..][j - 1];
      }
    }
  }

  /** After a declining first container, the verdict on the rest is the
      verdict on the whole list. */
  lemma {:induction false} DeclineStepVerdict(cs: seq<Json>, docker: string -> Exit, rest: Scan)
    requires |cs| > 0 && Declines(cs[0], docker)
    requires VerdictExplained(cs[1..], docker, rest)
    ensures VerdictExplained(cs, docker, Scan(rest.verdict, [ArgumentOf(cs[0]).value] + rest.probed))
  {
    var n := |rest.probed|;
    if 0 < n <= |cs| - 1 {
      assert cs[n] == cs[1..][n - 1];
    }
    if n < |cs| - 1 {
      assert cs[n + 1] == cs[1..][n];
    }
    if n <= |cs| - 1 && forall j :: 0 <= j < n ==> Declines(cs[1..][j], docker) {
      forall j | 0 <= j < n + 1 ensures Declines(cs[j], docker) {
        if j > 0 {
          assert cs[j] == cs[1..][j - 1];
        }
      }
    }
    if rest.verdict == Success(false) {
      forall j | 0 <= j < |cs| ensures Declines(cs[j], docker) {
        if j > 0 {
          assert cs[j] == cs[1..][j - 1];
        }
      }
    }
  }

  /** The `for container in containers` loop. `probed` lists the images a
      container was actually run for. */
  function ScanContainers(cs: seq<Json>, docker: string -> Exit): (r: Scan)
    ensures |r.probed| <= |cs|
    ensures forall j :: 0 <= j < |r.probed| ==> ArgumentOf(cs[j]) == Success(r.probed[j])
    ensures forall j :: 0 <= j < |r.probed| - 1 ==> Declines(cs[j], docker)
    ensures r.verdict == Success(true) <==>
              |r.probed| > 0 && Accepts(cs[|r.probed| - 1], docker)
    ensures r.verdict == Success(false) ==>
              |r.probed| == |cs| && forall j :: 0 <= j < |cs| ==> Declines(cs[j], docker)
    ensures r.verdict.Failure? ==>
              || (&& |r.probed| < |cs|
                  && ArgumentOf(cs[|r.probed|]) == Failure(r.verdict.error)
                  && forall j :: 0 <= j < |r.probed| ==> Declines(cs[j], docker))
              || (&& |r.probed| > 0
                  && Raises(cs[|r.probed| - 1], docker)
                  && r.verdict.error == UnicodeDecodeError)
  {
    if |cs| == 0 then Scan(Success(false), [])
    else
      match ImageOf(cs[0])
      case Failure(e) => Scan(Failure(e), [])
      case Success(image) =>
        ProbeOutcome(cs[0], docker);
        match ImageContainsMlflow(image, docker)
        case Failure(e) =>
          Scan(Failure(e), if CommandArgument(image).Success? then [CommandArgument(image).value] else [])
        case Success(found) =>
          if found then Scan(Success(true), [ArgumentOf(cs[0]).value])
          else
            var rest := ScanContainers(cs[1..], docker);
            assert ProbesPrefix(cs[1..], docker, rest);
            assert VerdictExplained(cs[1..], docker, rest);
            DeclineStepPrefix(cs, docker, rest);
            DeclineStepVerdict(cs, docker, rest);
            Scan(rest.verdict, [ArgumentOf(cs[0]).value] + rest.probed)
  }

  /** How a request ends: with a reply, or with an exception escaping the handler. */
  datatype Outcome = Replied(review: Review) | Raised(error: PyError)

  /** The outcome together with every image the handler ran a container for. */
  datatype Run = Run(outcome: Outcome, probed: seq<string>)

  /** Everything the handler does once the uid and the container list are
      in hand: iterate the list, probe in order, reply. Every reply is well
      shaped and echoes the uid; an allow follows a passing probe and a deny
      follows only failing ones. */
  function Respond(request: Request, docker: string -> Exit): (r: Run)
    ensures r.outcome.Replied? ==>
              WellShaped(r.outcome.review) && r.outcome.review.response.uid == request.uid
    ensures r.outcome.Replied? && r.outcome.review.response.allowed ==>
              |r.probed| > 0 && docker(r.probed[|r.probed| - 1]).returncode == 0
    ensures r.outcome.Replied? && !r.outcome.review.response.allowed ==>
              forall j :: 0 <= j < |r.probed| ==> docker(r.probed[j]).returncode != 0
  {
    match Iterate(request.containers)
    case Failure(e) => Run(Raised(e), [])
    case Success(cs) =>
      var scan := ScanContainers(cs, docker);
      match scan.verdict
      case Failure(e) => Run(Raised(e), scan.probed)
      case Success(allowed) => Run(Replied(Build(request.uid, allowed)), scan.probed)
  }

  /** The handler. A request whose uid or container path is missing ends
      with an exception before any container is run. On any other request,
      whatever else it holds, the handler does what `Respond` does with the
      values at the two paths. */
  function Validate(req: Json, docker: string -> Exit): (r: Run)
    ensures r.outcome.Replied? ==>
              && WellShaped(r.outcome.review)
              && At(req, UidPath).Success?
              && r.outcome.review.response.uid == At(req, UidPath).value
    ensures ParseRequest(req).Failure? ==> r == Run(Raised(ParseRequest(req).error), [])
    ensures At(req, UidPath).Success? && At(req, ContainersPath).Success? ==>
              r == Respond(Request(At(req, UidPath).value, At(req, ContainersPath).value), docker)
  {
    match ParseRequest(req)
    case Failure(e) => Run(Raised(e), [])
    case Success(parsed) => Respond(parsed, docker)
  }
}

=== FILE: wrappers.dfy ===
/** Failure-compatible wrappers used throughout the model: `Option` for a value
    that may be absent and `Result` for a computation that may raise. */
module Wrappers {

  datatype Option<+T> = None | Some(value: T)

  /** `Failure` carries the exception a Python computation would raise. */
  datatype Result<+T, +E> = Success(value: T) | Failure(error: E) {

    predicate IsFailure() {
      Failure?
    }

    function PropagateFailure<U>(): Result<U, E>
      requires Failure?
    {
      Failure(error)
    }

    function Extract(): T
      requires Success?
    {
      value
    }
  }
}
